=== FILE: README.md ===
# cells: a verified model of the spreadsheet core

`cells` is a terminal spreadsheet written in C++. This project models its
non-I/O core in Dafny and proves properties of that model. The core has four
parts:

- `Value` (`value.dfy`: module `Values`): a cell's content. It is a tagged
  union of an `int`, a `double` and a string. The model covers its
  constructors, copy and assignment, `operator+(unsigned)` (used to fill a
  range with an advancing sequence), `eval` and `get_type`.
- `Sheet` (`sheet.dfy` and `parsing.dfy`: modules `Sheets` and `Parsing`): a
  sparse map from position to cell, plus sparse maps of column widths and row
  heights that fall back to 10 and 1. The model covers `insert` and `remove`
  over a rectangle, the size getters and setters, the ±1 width keys,
  `get_abs_pos` (the character offset of a cell from the sheet's origin),
  `parse` (how typed text becomes a value) and `get_cells` (the key-range
  scan). `ParseOrText` is `parse` as its own comment describes it, keeping
  a text it cannot convert as a string.
- `Cell::Pos` (`cell.dfy`: module `Cells`): the position type. Its
  `operator<` orders the cell map. It compares both coordinates strictly,
  and the model proves that this is not a strict weak order.
- `Display` (`display.dfy`: module `Displays`): the visible window, or
  viewport, and the cursor. The model covers `update_view`, `update_hview`,
  `update_vview`, `get_disp_pos`, and the cursor keys of `take_input`: j, k,
  l, h, g, J, K, L, H, G, d, +, - and i.

Supporting modules:

- `MachineInts` holds the 32-bit types `uint32` and `int32`, with wrap-around
  written out. They are used where the source's arithmetic can wrap: column
  widths and row heights, `get_abs_pos`, `get_disp_pos`, the offsets of
  `operator+` and the `int` payload. Cell coordinates (`Cells.Pos`), the keys
  of the size maps and the window's edges are unbounded naturals instead;
  "## Left out" names what that misses at 2^32 - 1.
- `Numerals` holds decimal digit strings, used for `std::to_string` of an
  `int`.
- `Outcomes` holds `Result`, the success-or-error type.

`Range::index_of`, `std::to_string(double)` and the terminal size are parameters:

- `Range::index_of` is `indexOf: (Range, Pos) -> uint32`.
- `std::to_string(double)` is `formatDouble`.
- The terminal size `COLS`/`LINES` is passed as `cols`/`lines`.

A `double` is kept as the term that produced it (`Binary64`): the decimal
numeral handed to `std::stod`, or an offset added to another such term.

Three behaviours of the code shape the model:

- **Position order.** `Pos::operator<` is component-wise (`row < row && col < col`):
  a position is below another only when both its row and its column are. So `get_cells` is modelled as the set of stored cells whose key
  is neither below the range's begin nor above its end under that relation.
  That scan reaches outside the rectangle (`GetCellsBeyondRect`).
- **Integer round trip.** A negative integer does not survive a round trip
  through `eval` and `parse`. The minus sign is not a digit, so the text
  becomes a string (`ParseEvalNegative`).
- **Viewport margins.** The margins are fixed in the source: 6 columns, 3
  lines in `update_view`, and 4 lines in `update_vview`. They are computed
  from the terminal size in unsigned arithmetic (`Room`).

## Model

| member | source | states |
|---|---|---|
| Values.ConstructorTags | src/Value.cc:13-63 | The default value is the integer 0. Each constructor fixes the tag `get_type` reports: int gives INTEGER, double gives DOUBLE, and both string forms give STRING. |
| Values.Copy | src/Value.cc:22-29 | A copy has the source's tag and payload. |
| Values.Assign | src/Value.cc:77-88 | After assignment the target equals the source; nothing of the old target survives. |
| Values.Plus | src/Value.cc:95-107 | Adding an offset keeps the tag. A string comes back unchanged. An integer becomes exactly `i + n` when that does not overflow; on overflow the model wraps to 32-bit signed. |
| Values.PlusZero | src/Value.cc:98-102 | Adding 0 leaves an integer or a string unchanged. |
| Values.PlusTwice | src/Value.cc:101-102 | On integers and strings, two offsets in a row equal their unsigned sum applied once, under the wrap-around reading of overflow. |
| Values.PlusTwiceInteger | src/Value.cc:101-102 | The integer case: `(i + a) + b` and `i + (a + b)` agree after 32-bit wrap-around. |
| Values.Eval | src/Value.cc:112-124 | A string is displayed verbatim. An integer's text is all digits exactly when it is non-negative, and then it reads back as the integer. |
| Numerals.IntToString | src/Value.cc:117 | The text of an int is all digits if and only if the int is non-negative. |
| Numerals.ValueOfNatToString | src/Value.cc:117 | The decimal text of a natural number reads back as that number. |
| Cells.LessIrreflexive | src/Cell.cc:15-19 | No position is below itself. |
| Cells.LessAsymmetric | src/Cell.cc:15-19 | `p < q` and `q < p` never both hold. |
| Cells.LessTransitive | src/Cell.cc:15-19 | `<` is transitive. |
| Cells.SharedLineIncomparable | src/Cell.cc:15-19 | Two positions on the same row or column are unordered both ways. |
| Cells.IncomparabilityNotTransitive | src/Cell.cc:15-19 | (1,2) is unordered with (2,1) and with (3,2), yet (2,1) < (3,2). |
| Cells.NotStrictWeakOrder | src/Cell.cc:15-19 | The relation is not the strict weak order the cell map's ordering requires. |
| Sheets.Size | src/Sheet.cc:89-102 | A column or row with a set size reads that size; any other reads the default, which is positive. |
| Sheets.ColSize | src/Sheet.cc:89-93 | A column with a set width reads that width; any other column is 10 wide. |
| Sheets.RowSize | src/Sheet.cc:98-102 | A row with a set height reads that height; any other row is 1 high. |
| Sheets.EmptySheetSizes | src/Sheet.cc:17-18 | Without overrides, every column is 10 wide and every row 1 high. |
| Sheets.SetColSize | src/Sheet.cc:107-111 | After setting column i's width to w, column i reads w; every other column, every row and the cells are unchanged. |
| Sheets.SetRowSize | src/Sheet.cc:116-120 | The same for row heights. |
| Sheets.IncreaseColSize | src/Sheet.cc:125-131 | The width becomes old + 1 modulo 2^32; a first touch gives 11. Other columns, the rows and the cells are unchanged. |
| Sheets.DecreaseColSize | src/Sheet.cc:136-142 | The width becomes old - 1 modulo 2^32. A first touch gives 9; width 0 wraps to 2^32 - 1. Nothing else changes. |
| Sheets.IncreaseThenDecrease | src/Sheet.cc:125-142 | Widening and then narrowing a column restores every column's width. |
| Sheets.AbsPos | src/Sheet.cc:147-157 | The result is the sum of the widths of columns 1..col-1 and of the heights of rows 1..row-1, reduced modulo 2^32. It is exact when the sum fits. |
| Sheets.OffsetStep | src/Sheet.cc:152-155 | Column 1 is at offset 0, and each line starts where the previous one ends, so offsets never decrease. |
| Sheets.OffsetDifference | src/Sheet.cc:147-157 | The difference of two offsets is the size of the lines between them. |
| Sheets.SpanSplit | src/Sheet.cc:152-155 | The size of a run of lines is the sum of the sizes of any two consecutive parts. |
| Sheets.Filled | src/Sheet.cc:31-37 | Every position in the rectangle holds the value advanced by that position's index in the range. Every other position is unchanged. Sizes are unchanged. |
| Sheets.Insert | src/Sheet.cc:31-37 | The column-by-column, row-by-row loops produce exactly `Filled`. |
| Sheets.FillColumn | src/Sheet.cc:35-36 | The inner loop fills the rectangle's part of one column and touches nothing else. |
| Sheets.Cleared | src/Sheet.cc:42-48 | No position in the rectangle remains; every other position is unchanged, and erasing an absent key changes nothing. |
| Sheets.Remove | src/Sheet.cc:42-48 | The erase loops produce exactly `Cleared`. |
| Sheets.ClearColumn | src/Sheet.cc:46-47 | The inner loop erases the rectangle's part of one column and touches nothing else. |
| Sheets.EmptyRangeNoOp | src/Sheet.cc:34-35 | A range whose end precedes its begin in either coordinate is empty: `insert` and `remove` change nothing. |
| Sheets.ClearAfterFill | src/Sheet.cc:31-48 | Removing a range just filled gives the same sheet as removing it directly. |
| Sheets.FillIdempotent | src/Sheet.cc:31-37 | Filling the same range twice with the same value is the same as filling it once. |
| Sheets.GetCells | src/Sheet.cc:72-84 | The result is empty when end < begin. Every returned cell is a stored cell. Every stored cell inside the rectangle is returned. |
| Sheets.GetCellsBeyondRect | src/Sheet.cc:79-82 | The scan over (1,1)-(2,2) also returns a cell stored at (1,5), outside the rectangle. |
| Sheets.GetCellsAfterRemove | src/Sheet.cc:42-84 | After `remove(r)`, the query over `r` returns no cell inside `r`. |
| Sheets.GetCellsAfterInsert | src/Sheet.cc:31-84 | After `insert(r, v)`, the query over `r` returns every cell just stored. |
| Parsing.Scan | src/Sheet.cc:58-65 | The classifying loop calls a text a string exactly when it has a character other than a digit or the first point. Otherwise it reports a fraction exactly when there is a point. |
| Parsing.NoDigitNumeral | src/Sheet.cc:58-66 | Number-shaped text without a digit is "" or ".". |
| Parsing.ParseValue | src/Sheet.cc:55-67 | Text that is not number-shaped becomes that string. Digits become that integer, or `out_of_range` past 2^31 - 1. Digits with one point become that decimal. "" and "." are `invalid_argument`, and they are the only texts that fail with it. Past 2^31 - 1 is the only integer `out_of_range`. |
| Parsing.ParseOrText | src/Sheet.cc:50-67 | The documented intent of `parse`, which never fails: a run of digits up to 2^31 - 1 becomes that integer, a numeral with one point and a digit becomes that decimal, and every other text becomes that string. |
| Parsing.ParseOrTextAgrees | src/Sheet.cc:50-67 | `ParseOrText` agrees with `parse` wherever `parse` succeeds. It makes a string of a number-shaped text exactly when `parse` throws on it. |
| Parsing.ParseEvalNonNegative | src/Sheet.cc:55-67 | A non-negative integer's display text parses back to the same integer. |
| Parsing.ParseEvalNegative | src/Sheet.cc:55-67 | A negative integer's display text parses back as a string. |
| Parsing.ParseEvalText | src/Sheet.cc:55-67 | A string with a character other than a digit or a point parses back to itself. |
| Displays.UpdateView | src/Display.cc:391-401 | The window starts at the anchor and stops at the first column where the width sum, which counts the anchor column twice, reaches `COLS - 6`. It likewise stops at the first row where the height sum reaches `LINES - 3`. The loops end because only finitely many sizes are overridden and the defaults are positive. |
| Displays.FillsFromUnique | src/Display.cc:391-401 | Those stopping conditions admit one window only, so `update_view`'s result is determined by the sheet, the anchor and the terminal size. |
| Displays.SpanOfDefaults | src/Sheet.cc:89-102 | Without overrides, a run of lines is as large as its length times the default size. |
| Displays.FillsFromFreshSheet | src/Display.cc:391-401 | On a fresh sheet and a 36 by 10 terminal, the window from A1 ends at row 7, column 3, and at no other position. |
| Displays.FillsFromNarrowedColumn | src/Display.cc:394-397 | With column 2 narrowed past 0 to width 2^32 - 1, on an 80-column terminal, the model's window from A1 ends at column 3. This is where the exact sum and the source's 32-bit `tmp` part ways (see Displays.UpdateView under Left out). |
| Displays.Slide | src/Display.cc:407-453 | The target line ends up in the window and the other axis is untouched. If the target was already visible, nothing changes. Otherwise the edge nearer the target lands on it, and the opposite edge moves only as far as needed to fit the room: one line less and it would not fit. |
| Displays.UpdateHView | src/Display.cc:407-427 | The cursor's column ends up in the window. Rows are untouched, and nothing changes if the column was visible. Otherwise the nearer edge lands on the cursor's column and the far edge moves just enough for the window to fit in `COLS - 6` characters. |
| Displays.UpdateVView | src/Display.cc:433-453 | The cursor's row ends up in the window. Columns are untouched, and nothing changes if the row was visible. Otherwise the nearer edge lands on the cursor's row and the far edge moves just enough for the window to fit in `LINES - 4` lines. |
| Displays.ShrinkEndAsWritten | src/Display.cc:424-425 | The retreating loop as written, `diff -= size(end--)` in unsigned arithmetic: it does not run when the window fits, and while the window does not fit, every iteration moves the end back one line modulo 2^32. |
| Displays.HViewShrinkWraps | src/Display.cc:418-426 | The left-branch loop as written lets the window's end column fall to 0, below its begin. |
| Displays.VViewShrinkWraps | src/Display.cc:444-452 | The same for the upper branch and rows. |
| Displays.ScreenCoord | src/Display.cc:301-304 | Subtracting the wrapped offsets gives the exact difference plus the margin, modulo 2^32. |
| Displays.DispPos | src/Display.cc:297-306 | A cell's screen position is its offset minus the window's offset plus (6, 2), modulo 2^32. The window's first cell is at (6, 2), and the position is exact when nothing wraps. |
| Displays.MoveCursor | src/Display.cc:97-153 | j/k/l/h and g, G collapse the selection; J/K/L/H keep its anchor. k and h stop at line 1, and K and H stop at the anchor. Each of j/k/l/h/J/K/L/H moves the end by at most one line along its own axis. Selections stay ordered and 1-based. |
| Displays.DownThenUp | src/Display.cc:97-122 | k undoes j and h undoes l, leaving a one-cell selection. |
| Displays.UpThenDown | src/Display.cc:97-122 | j undoes k and l undoes h, except on the first row or column, where k and h stay put. |
| Displays.ExtendThenRetract | src/Display.cc:128-149 | K undoes J and H undoes L. J undoes K and L undoes H unless the selection is one line thick, where the retraction does nothing. |
| Displays.Init | src/Display.cc:48-62 | The constructor puts the cursor on A1 and builds the window from A1 with the model's `UpdateView`, which fills the terminal. The display is in a valid state. |
| Displays.MoveVertically | src/Display.cc:97-138 | j, k, J and K move the cursor's end along its column; the window then follows its row as the model's `UpdateVView` does, staying put when the row is visible, and the display stays valid. |
| Displays.MoveHorizontally | src/Display.cc:110-149 | l, h, L and H do the same along the row, with the window following the column as the model's `UpdateHView` does. |
| Displays.Refit | src/Display.cc:168-175 | After + or - the cursor is unchanged and the window follows its column over the new widths as `update_hview` does; the display stays valid. |
| Displays.StepInPlace | src/Display.cc:123-177 | g rebuilds the window from A1 as the model's `UpdateView` does, G moves the cursor to the window's end, d erases the selection, + and - change one column's width by one, and any other key does nothing. The display stays valid. |
| Displays.Step | src/Display.cc:95-179 | Each key keeps the display valid, so the cursor's end stays inside the window. The sheet changes only for d, + and -. After g the window is the one the model's `UpdateView` builds from A1. After j/k/J/K (l/h/L/H, +, -) the window follows the cursor's row (column) as the model's `UpdateVView` (`UpdateHView`) does. G and d leave the window alone. |
| Displays.TakeValue | src/Display.cc:228-243 | The typed line is parsed. On success the whole selection is filled with the value and the window and cursor are unchanged. On a rejected line the result is the conversion error, which stands for the uncaught exception that ends the program. |
| Displays.TakeValueRejects | src/Display.cc:240 | An empty line and a lone point are rejected lines. |
| Displays.TakeValueAsText | src/Display.cc:228-243 | With `parse` keeping an unconvertible line as a string, 'i' always fills the selection: with `parse`'s value when it succeeds and with the typed text when it would throw. The window and cursor are unchanged and the display stays valid. |

## Left out

- Terminal I/O: drawing, raw and cooked mode, signals and window-size queries. `COLS`/`LINES` are parameters.
- The ':' command mode (`take_cmd`), file names, and `Sheet::load`/`Sheet::save`.
- Reading the typed line from standard input. `TakeValue` receives it as a parameter.
- Floating point. A `double` is a symbolic term, so `d + (double)ui`, the value `std::stod` computes and `std::to_string(double)` are not modelled.
- Parsing.ParseValue: `std::stod` throws `out_of_range` when the number overflows a double (e.g. 400 digits and ".0") or underflows it ("0.", 400 zeros, "1"); the model accepts every numeral with one point and a digit, because the symbolic `double` has no range.
- Values.Plus: `m_value.i + (int)ui` has undefined behaviour on signed overflow, and `(int)ui` above 2^31 - 1 is implementation-defined before C++20. The model assumes two's-complement wrap-around for both. Values.PlusTwice's overflowing cases rest on that assumption.
- The string payload's `new`/`delete`. Dafny values make it moot.
- The code of `Cell::Range`, `Range::index_of`, `Range::contains` and address text parsing is not part of this model. A range is a pair of positions and `index_of` is a parameter.
- Cells.A1Range: the literal `"A1:A1"` is assumed to denote the range (1,1)-(1,1).
- Sheets.Filled: `m_cells` is modelled as a map keyed by position equality. The source's `std::map<Cell::Pos, Cell>` compares keys with the component-wise `operator<`, under which positions sharing a row or a column are equivalent keys, so `m_cells[cur]` can overwrite the entry of another position (filling A1:A5 may leave one entry); that is undefined behaviour for `std::map`, and the model gives every position its own entry instead.
- Sheets.Insert: keys are positions compared by equality, as for Sheets.Filled.
- Sheets.Cleared: keys are positions compared by equality, so erasing a position never removes another position's entry, which an equivalent-key `erase` in the source can.
- Sheets.Remove: keys are positions compared by equality, as for Sheets.Cleared.
- Sheets.GetCells: returns a set, not the vector in key order. The broken `operator<` would make `std::map`'s actual traversal undefined, so the set holds the cells a consistent scan between the two bounds selects.
- Displays.UpdateView: the running sum is unbounded rather than the source's 32-bit `unsigned tmp`, so the two differ once the sum passes 2^32 - 1. Ordinary keys reach this: '-' pressed eleven times on a fresh column takes its width 10, 9, ..., 0, 2^32 - 1. With that column as column 2 on an 80-column terminal, g gives a window ending at column 3 in the model, while the source's `tmp` wraps to 19 and its window ends at column 9 (Displays.FillsFromNarrowedColumn states the model's side).
- Displays.Slide: `diff` is the exact size of the window rather than the source's 32-bit difference of two wrapped offsets. The two agree while offsets fit in 32 bits; a column narrowed past 0 (width 2^32 - 1) makes them differ.
- Displays.Slide: the shrinking loop of the left and upper branches is the corrected one (see Findings).
- Displays.UpdateHView: uses the corrected shrinking loop of the left branch (see Findings).
- Displays.UpdateVView: uses the corrected shrinking loop of the upper branch (see Findings).
- Displays.Init: the window is the model's `UpdateView`, so it inherits that line's unbounded sum.
- Displays.MoveVertically: the window follows the model's `UpdateVView`, so it inherits the corrected shrinking loop and exact `diff` of the Displays.Slide lines, and the coordinates do not wrap at 2^32 - 1.
- Displays.MoveHorizontally: the window follows the model's `UpdateHView`, with the same inherited differences as Displays.MoveVertically.
- Displays.StepInPlace: g goes through Displays.Init and so inherits the unbounded sum of Displays.UpdateView.
- Displays.Step: coordinates are unbounded naturals, so j and l at row or column 2^32 - 1 do not wrap to 0. The window after g and after the cursor keys is the model's `UpdateView`, `UpdateVView` or `UpdateHView`, with the differences their lines name.
- Displays.MoveCursor: `++m_cursor.end.row` and `++m_cursor.end.col` on `unsigned` fields wrap from 2^32 - 1 to 0; the model's coordinates are naturals, so the end moves to 2^32 instead.
- Sheets.Insert: a range whose end column or end row is 2^32 - 1 makes the source's loops run forever, because an `unsigned` counter is never above 2^32 - 1 and `++` wraps it to 0. The model's coordinates are naturals, so Insert stops after filling the rectangle.
- Sheets.Remove: the same unbounded loop on an end column or end row of 2^32 - 1; the model stops after erasing the rectangle.

## Findings

| source | as written | input that shows it | evidently intended | confidence | as-written member | corrected member |
|---|---|---|---|---|---|---|
| src/Display.cc:418-426 | The left branch of `update_hview` shrinks with `diff -= get_col_siz(m_view.end.col--)`. This subtracts the width of the end column, which `diff` (the offset of the end minus the offset of the begin) never included. `diff` is unsigned, so it wraps, and the loop then runs the end column below the begin. | COLS 16 (room 10); column 3 widened to 30; window on columns 2..3; cursor on column 2; key h. `diff` starts at 20. After three iterations the end column is 0 and `diff` is 2^32 - 30. | Subtract the width of the column the end retreats onto (pre-decrement). `diff` then stays the width of [begin, end), and the loop stops with the end at or after the begin. | high; not executed | Displays.ShrinkEndAsWritten, Displays.HViewShrinkWraps | Displays.Slide, Displays.UpdateHView |
| src/Display.cc:444-452 | The upper branch of `update_vview` does the same on rows: `diff -= get_row_siz(m_view.end.row--)`. | LINES 5 (room 1); row 3 set to height 5; window on rows 2..3; cursor on row 2; key k. `diff` starts at 2. After three iterations the end row is 0 and `diff` is 2^32 - 5. | Subtract the height of the row the end retreats onto. | high; not executed | Displays.ShrinkEndAsWritten, Displays.VViewShrinkWraps | Displays.Slide, Displays.UpdateVView |
| src/Display.cc:228-243 | `take_value` passes the typed line to `parse`, whose `std::stoi`/`std::stod` throw on a line they cannot convert. Nothing between `take_value`, `take_input` and `main` catches the exception, so `std::terminate` ends the program. The terminal is already back in cooked mode (`set_cooked` runs before `parse`; only `set_raw` is skipped), but `~Display` need not run, so it typically stays on the alternate screen. | Key i, then an empty line (or ".", or "99999999999"). | The comment on `parse` says a text is converted to an int or a double or left as a string, so a text the conversions reject is stored as that string. | medium; not executed | Displays.TakeValue, Displays.TakeValueRejects | Parsing.ParseOrText, Displays.TakeValueAsText |

=== FILE: cell.dfy ===
/** `Cell`, its address `Cell::Pos`, the rectangle `Cell::Range`, and the
    comparison `Cell::Pos::operator<` that orders the sheet's cell map. */
module Cells {
  import opened Values

  /** `Cell::Pos`: 1-based row and column. */
  datatype Pos = Pos(row: nat, col: nat)

  /** `Cell::Range`: the corners of a selection or of the visible window. */
  datatype Range = Range(begin: Pos, end: Pos)

  /** A cell records its own address next to its value. */
  datatype Cell = Cell(pos: Pos, value: Value)

  /** The range literal "A1:A1": the single cell at row 1, column 1. Address
      text parsing is not part of this model; this constant is its result. */
  const A1: Pos := Pos(1, 1)
  const A1Range: Range := Range(A1, A1)

  /** The two directions of the grid. */
  datatype Axis = Columns | Rows

  function Across(axis: Axis): Axis {
    match axis
    case Columns => Rows
    case Rows => Columns
  }

  /** The coordinate of `p` along `axis`. */
  function Coord(p: Pos, axis: Axis): nat {
    match axis
    case Columns => p.col
    case Rows => p.row
  }

  /** `p` moved to coordinate `x` along `axis`. */
  function WithCoord(p: Pos, axis: Axis, x: nat): (q: Pos)
    ensures Coord(q, axis) == x
    ensures Coord(q, Across(axis)) == Coord(p, Across(axis))
  {
    match axis
    case Columns => p.(col := x)
    case Rows => p.(row := x)
  }

  /** The positions the nested loops of `Sheet::insert` and `Sheet::remove`
      visit: columns `begin.col..end.col` and rows `begin.row..end.row`,
      both inclusive. */
  predicate InRect(r: Range, p: Pos) {
    r.begin.col <= p.col <= r.end.col && r.begin.row <= p.row <= r.end.row
  }

  function Rect(r: Range): (ps: set<Pos>)
    ensures forall p :: p in ps <==> InRect(r, p)
  {
    set row: nat, col: nat | r.begin.row <= row <= r.end.row && r.begin.col <= col <= r.end.col
      :: Pos(row, col)
  }

  /** `Cell::Pos::operator<`: strictly smaller in both coordinates. */
  predicate Less(p: Pos, q: Pos) {
    p.row < q.row && p.col < q.col
  }

  /** Neither position is before the other. */
  predicate Incomparable(p: Pos, q: Pos) {
    !Less(p, q) && !Less(q, p)
  }

  /** The requirements `std::map` puts on its comparison: irreflexive,
      transitive, and with transitive incomparability. */
  ghost predicate StrictWeakOrder(lt: (Pos, Pos) -> bool) {
    && (forall p :: !lt(p, p))
    && (forall p, q, r :: lt(p, q) && lt(q, r) ==> lt(p, r))
    && (forall p, q, r :: !lt(p, q) && !lt(q, p) && !lt(q, r) && !lt(r, q) ==> !lt(p, r) && !lt(r, p))
  }

  lemma LessIrreflexive(p: Pos)
    ensures !Less(p, p)
  {
  }

  lemma LessAsymmetric(p: Pos, q: Pos)
    ensures Less(p, q) ==> !Less(q, p)
  {
  }

  lemma LessTransitive(p: Pos, q: Pos, r: Pos)
    ensures Less(p, q) && Less(q, r) ==> Less(p, r)
  {
  }

  /** Positions on one row or one column are never ordered either way, so the
      map treats them as the same key. */
  lemma SharedLineIncomparable(p: Pos, q: Pos)
    requires p.row == q.row || p.col == q.col
    ensures Incomparable(p, q)
  {
  }

  /** (1,2) is incomparable with (2,1) and with (3,2), yet (2,1) < (3,2). */
  lemma IncomparabilityNotTransitive()
    ensures Incomparable(Pos(1, 2), Pos(2, 1))
    ensures Incomparable(Pos(1, 2), Pos(3, 2))
    ensures Less(Pos(2, 1), Pos(3, 2))
  {
  }

  /** Hence `operator<` is not the strict weak order `std::map<Cell::Pos, Cell>`
      needs, and the map's lookups are not specified by it. */
  lemma NotStrictWeakOrder()
    ensures !StrictWeakOrder(Less)
  {
    var p, q, r := Pos(2, 1), Pos(1, 2), Pos(3, 2);
    assert !Less(p, q) && !Less(q, p) && !Less(q, r) && !Less(r, q);
    assert Less(p, r);
  }
}

=== FILE: display.dfy ===
/** `Display`: the visible window over the sheet, the cursor, and the keys
    that move them. The terminal size `COLS`/`LINES` is passed in. */
module Displays {
  import opened MachineInts
  import opened Cells
  import opened Sheets
  import opened Parsing
  import opened Outcomes
  import Values

  /** `m_sheet`, `m_view` (the visible range) and `m_cursor` (the selection,
      whose `end` is the cell the terminal cursor sits on). */
  datatype Display = Display(sheet: Sheet, view: Range, cursor: Range)

  /** The room a margin leaves, `COLS - 6` and the like, in unsigned
      arithmetic. */
  function Room(total: uint32, margin: nat): uint32 {
    ToUnsigned(total - margin)
  }

  /** The overrides at or past line `e`. A loop walking past the last one
      meets only default sizes, which are positive, so the window loops end. */
  function Beyond(m: map<nat, uint32>, e: nat): set<nat> {
    set k | k in m && k >= e
  }

  lemma BeyondStep(m: map<nat, uint32>, e: nat)
    ensures e in m ==> |Beyond(m, e + 1)| < |Beyond(m, e)|
    ensures e !in m ==> Beyond(m, e + 1) == Beyond(m, e)
  {
    if e in m {
      assert Beyond(m, e + 1) == Beyond(m, e) - {e};
    }
  }

  /** Where `update_view` leaves the window it grows from `anchor`: it
      begins at `anchor` and ends on the first column where the width sum
      reaches `COLS - 6` and on the first row where the height sum reaches
      `LINES - 3`. The width sum adds the width of each column the loop
      leaves, so the anchor column is counted twice and the end column not
      at all; the height sum adds each row the loop enters, so it covers the
      rows from `anchor` through the end row. */
  predicate FillsFrom(s: Sheet, anchor: Pos, view: Range, cols: uint32, lines: uint32) {
    && view.begin == anchor
    && anchor.col <= view.end.col && anchor.row <= view.end.row
    && ColSize(s, anchor.col) + Span(s, Columns, anchor.col, view.end.col) >= Room(cols, 6)
    && (forall e :: anchor.col <= e < view.end.col ==>
          ColSize(s, anchor.col) + Span(s, Columns, anchor.col, e) < Room(cols, 6))
    && Span(s, Rows, anchor.row, view.end.row + 1) >= Room(lines, 3)
    && (forall e :: anchor.row < e <= view.end.row ==> Span(s, Rows, anchor.row, e) < Room(lines, 3))
  }

  /** `update_view`: the window restarts at `anchor` and grows right and
      down until it fills the terminal, as `FillsFrom` describes. */
  method UpdateView(s: Sheet, anchor: Pos, cols: uint32, lines: uint32) returns (view: Range)
    ensures FillsFrom(s, anchor, view, cols, lines)
  {
    var width := Room(cols, 6);
    var endCol := anchor.col;
    var tmp: int := ColSize(s, endCol);
    while tmp < width
      invariant anchor.col <= endCol
      invariant tmp == ColSize(s, anchor.col) + Span(s, Columns, anchor.col, endCol)
      invariant forall e :: anchor.col <= e < endCol ==>
        ColSize(s, anchor.col) + Span(s, Columns, anchor.col, e) < width
      decreases |Beyond(s.colSizes, endCol)|, width - tmp
    {
      BeyondStep(s.colSizes, endCol);
      tmp := tmp + ColSize(s, endCol);
      endCol := endCol + 1;
    }
    var height := Room(lines, 3);
    var endRow := anchor.row;
    tmp := RowSize(s, endRow);
    while tmp < height
      invariant anchor.row <= endRow
      invariant tmp == Span(s, Rows, anchor.row, endRow + 1)
      invariant forall e :: anchor.row < e <= endRow ==> Span(s, Rows, anchor.row, e) < height
      decreases |Beyond(s.rowSizes, endRow + 1)|, height - tmp
    {
      BeyondStep(s.rowSizes, endRow + 1);
      endRow := endRow + 1;
      tmp := tmp + RowSize(s, endRow);
    }
    view := Range(anchor, Pos(endRow, endCol));
  }

  /** At most one window satisfies `FillsFrom`: `update_view`'s result is
      determined by the sheet, the anchor and the terminal size. */
  lemma FillsFromUnique(s: Sheet, anchor: Pos, v: Range, w: Range, cols: uint32, lines: uint32)
    requires FillsFrom(s, anchor, v, cols, lines) && FillsFrom(s, anchor, w, cols, lines)
    ensures v == w
  {
  }

  /** On a sheet without size overrides every line has the default size. */
  lemma {:induction false} SpanOfDefaults(axis: Axis, b: nat, e: nat)
    requires b <= e
    ensures Span(EmptySheet, axis, b, e) == (e - b) * DefaultSize(axis)
    decreases e
  {
    if b < e {
      SpanOfDefaults(axis, b, e - 1);
    }
  }

  /** On a fresh sheet and a 36 by 10 terminal, the window from A1 is
      A1 through row 7, column 3: the width sum 10 + 10 + 10 first reaches
      36 - 6 at column 3, and the heights of rows 1 to 7 first reach 10 - 3. */
  lemma FillsFromFreshSheet(v: Range)
    ensures FillsFrom(EmptySheet, A1, v, 36, 10) <==> v == Range(A1, Pos(7, 3))
  {
    var w := Range(A1, Pos(7, 3));
    assert Room(36, 6) == 30 && Room(10, 3) == 7;
    SpanOfDefaults(Columns, 1, 3);
    SpanOfDefaults(Rows, 1, 8);
    forall e | 1 <= e < 3
      ensures ColSize(EmptySheet, 1) + Span(EmptySheet, Columns, 1, e) < 30
    {
      SpanOfDefaults(Columns, 1, e);
    }
    forall e | 1 < e <= 7
      ensures Span(EmptySheet, Rows, 1, e) < 7
    {
      SpanOfDefaults(Rows, 1, e);
    }
    assert FillsFrom(EmptySheet, A1, w, 36, 10);
    if FillsFrom(EmptySheet, A1, v, 36, 10) {
      FillsFromUnique(EmptySheet, A1, v, w, 36, 10);
    }
  }

  /** A column narrowed past 0 is 2^32 - 1 wide. With such a column 2, the
      exact sum makes the window from A1 on an 80-column terminal end at
      column 3, where the source's 32-bit sum wraps and runs on. */
  lemma FillsFromNarrowedColumn(v: Range, lines: uint32)
    requires FillsFrom(SetColSize(EmptySheet, 2, UINT32_MAX as uint32), A1, v, 80, lines)
    ensures v.end.col == 3
  {
    var s := SetColSize(EmptySheet, 2, UINT32_MAX as uint32);
    assert Room(80, 6) == 74;
    assert ColSize(s, 1) == 10 && ColSize(s, 2) == UINT32_MAX;
    assert Span(s, Columns, 1, 1) == 0;
    assert Span(s, Columns, 1, 2) == 10;
    assert Span(s, Columns, 1, 3) == 10 + UINT32_MAX;
  }

  /** What `update_hview` (along `Columns`) and `update_vview` (along `Rows`)
      promise of the window `v` they make from `view` for the cursor's line
      `target`. The other axis is untouched and `target` ends up inside. A
      window already showing `target` stays as it is. Otherwise the edge
      nearer `target` lands on it, and the opposite edge moves only as far as
      needed for the lines from begin up to, not including, end to fit in
      `room`. */
  predicate Follows(s: Sheet, axis: Axis, view: Range, v: Range, target: nat, room: nat) {
    && Coord(v.begin, Across(axis)) == Coord(view.begin, Across(axis))
    && Coord(v.end, Across(axis)) == Coord(view.end, Across(axis))
    && Coord(v.begin, axis) <= target <= Coord(v.end, axis)
    && (Coord(view.begin, axis) <= target <= Coord(view.end, axis) ==> v == view)
    && (Coord(view.end, axis) < target ==>
          && Coord(v.end, axis) == target
          && Coord(view.begin, axis) <= Coord(v.begin, axis)
          && Span(s, axis, Coord(v.begin, axis), target) <= room
          && (Coord(v.begin, axis) == Coord(view.begin, axis) || Span(s, axis, Coord(v.begin, axis) - 1, target) > room))
    && (target < Coord(view.begin, axis) ==>
          && Coord(v.begin, axis) == target
          && Coord(v.end, axis) <= Coord(view.end, axis)
          && Span(s, axis, target, Coord(v.end, axis)) <= room
          && (Coord(v.end, axis) == Coord(view.end, axis) || Span(s, axis, target, Coord(v.end, axis) + 1) > room))
  }

  /** The common body of `update_hview` (along `Columns`) and `update_vview`
      (along `Rows`). When `target` lies past the window's end, the end moves
      onto it and the begin advances while the lines from begin up to, not
      including, end exceed `room`. When `target` lies before the window's
      begin, the begin moves onto it and the end retreats the same way. The
      retreating loop here subtracts the line the end retreats onto; see
      `ShrinkEndAsWritten` for the loop as the source writes it. */
  method Slide(s: Sheet, axis: Axis, view: Range, target: nat, room: nat) returns (v: Range)
    requires Coord(view.begin, axis) <= Coord(view.end, axis)
    ensures Follows(s, axis, view, v, target, room)
  {
    v := view;
    var b, e := Coord(view.begin, axis), Coord(view.end, axis);
    if e < target {
      e := target;
      var diff := Span(s, axis, b, e);
      ghost var b0 := b;
      while diff > room
        invariant b0 <= b <= e
        invariant diff == Span(s, axis, b, e)
        invariant b == b0 || Span(s, axis, b - 1, e) > room
        decreases e - b
      {
        SpanSplit(s, axis, b, b + 1, e);
        diff := diff - Size(s, axis, b);
        b := b + 1;
      }
      v := Range(WithCoord(view.begin, axis, b), WithCoord(view.end, axis, e));
    } else if target < b {
      b := target;
      var diff := Span(s, axis, b, e);
      ghost var e0 := e;
      while diff > room
        invariant b <= e <= e0
        invariant diff == Span(s, axis, b, e)
        invariant e == e0 || Span(s, axis, b, e + 1) > room
        decreases e - b
      {
        e := e - 1;
        diff := diff - Size(s, axis, e);
      }
      v := Range(WithCoord(view.begin, axis, b), WithCoord(view.end, axis, e));
    }
  }

  /** `update_hview`: bring the cursor's column into the window, keeping the
      window within `COLS - 6` characters. */
  method UpdateHView(d: Display, cols: uint32) returns (d': Display)
    requires d.view.begin.col <= d.view.end.col
    ensures d'.sheet == d.sheet && d'.cursor == d.cursor
    ensures Follows(d.sheet, Columns, d.view, d'.view, d.cursor.end.col, Room(cols, 6))
  {
    var v := Slide(d.sheet, Columns, d.view, d.cursor.end.col, Room(cols, 6));
    d' := d.(view := v);
  }

  /** `update_vview`: bring the cursor's row into the window, keeping the
      window within `LINES - 4` lines; note the margin of 4 where
      `update_view` uses 3. */
  method UpdateVView(d: Display, lines: uint32) returns (d': Display)
    requires d.view.begin.row <= d.view.end.row
    ensures d'.sheet == d.sheet && d'.cursor == d.cursor
    ensures Follows(d.sheet, Rows, d.view, d'.view, d.cursor.end.row, Room(lines, 4))
  {
    var v := Slide(d.sheet, Rows, d.view, d.cursor.end.row, Room(lines, 4));
    d' := d.(view := v);
  }

  /** The shrink loop of the left branch of `update_hview` (and of the upper
      branch of `update_vview`) as the source writes it, `diff -= size(end--)`
      in unsigned arithmetic, run for at most `fuel` iterations. It subtracts
      the size of line `end` although `diff` covers only the lines before it. */
  function ShrinkEndAsWritten(s: Sheet, axis: Axis, end: uint32, diff: uint32, room: nat, fuel: nat): (r: (uint32, uint32))
    ensures diff <= room ==> r == (end, diff)
    ensures r.1 > room ==> r.0 == ToUnsigned(end - fuel)
    decreases fuel
  {
    if fuel == 0 || diff <= room then (end, diff)
    else
      var r := ShrinkEndAsWritten(s, axis, ToUnsigned(end - 1), ToUnsigned(diff - Size(s, axis, end)), room, fuel - 1);
      CongruentReduce(ToUnsigned(end - 1) - (fuel - 1), end - fuel);
      r
  }

  /** On a 16-column terminal (room 10), with column 3 widened to 30, the
      window on columns 2..3 and the cursor on column 2, the key 'h' moves
      the cursor to column 1 and starts the loop on columns 1..3 with
      `diff` 20. The first iteration subtracts 30 and wraps; after three, the
      window's end column is 0, below its begin column 1, and `diff` still
      exceeds the room, so the loop goes on. */
  lemma HViewShrinkWraps()
    ensures var s := SetColSize(EmptySheet, 3, 30);
            && Room(16, 6) == 10
            && Span(s, Columns, 1, 3) == 20
            && ShrinkEndAsWritten(s, Columns, 3, 20, 10, 3) == (0, UINT32_MODULUS - 30)
  {
    var s := SetColSize(EmptySheet, 3, 30);
    assert ShrinkEndAsWritten(s, Columns, 1, UINT32_MODULUS - 20, 10, 1) == (0, UINT32_MODULUS - 30);
    assert ShrinkEndAsWritten(s, Columns, 2, UINT32_MODULUS - 10, 10, 2) == (0, UINT32_MODULUS - 30);
  }

  /** The same on rows: a 5-line terminal (room 1), row 3 set to height 5,
      the window on rows 2..3 and the cursor moved from row 2 to row 1 by 'k'.
      After three iterations the end row is 0 and the loop goes on. */
  lemma VViewShrinkWraps()
    ensures var s := SetRowSize(EmptySheet, 3, 5);
            && Room(5, 4) == 1
            && Span(s, Rows, 1, 3) == 2
            && ShrinkEndAsWritten(s, Rows, 3, 2, 1, 3) == (0, UINT32_MODULUS - 5)
  {
    var s := SetRowSize(EmptySheet, 3, 5);
    assert ShrinkEndAsWritten(s, Rows, 1, UINT32_MODULUS - 4, 1, 1) == (0, UINT32_MODULUS - 5);
    assert ShrinkEndAsWritten(s, Rows, 2, UINT32_MODULUS - 3, 1, 2) == (0, UINT32_MODULUS - 5);
  }

  /** The screen coordinate of line `c` along `axis` when the window starts
      at line `v` and leaves a margin `m`: exact when nothing wraps. */
  lemma ScreenCoord(s: Sheet, axis: Axis, v: nat, c: nat, m: nat)
    ensures ToUnsigned(ToUnsigned(Offset(s, axis, c)) - ToUnsigned(ToUnsigned(Offset(s, axis, v)) - m))
            == ToUnsigned(Offset(s, axis, c) - Offset(s, axis, v) + m)
    ensures 1 <= v <= c && Offset(s, axis, c) + m <= UINT32_MAX ==>
      ToUnsigned(Offset(s, axis, c) - Offset(s, axis, v) + m) == Span(s, axis, v, c) + m
  {
    ShiftedDifference(Offset(s, axis, c), Offset(s, axis, v), m);
    if 1 <= v <= c {
      OffsetDifference(s, axis, v, c);
    }
  }

  /** `get_disp_pos`: the terminal position of cell `p`, its offset from the
      window's first cell plus the margins of 6 columns and 2 lines, in
      unsigned arithmetic. */
  method DispPos(d: Display, p: Pos) returns (x: uint32, y: uint32)
    ensures x == ToUnsigned(Offset(d.sheet, Columns, p.col) - Offset(d.sheet, Columns, d.view.begin.col) + 6)
    ensures y == ToUnsigned(Offset(d.sheet, Rows, p.row) - Offset(d.sheet, Rows, d.view.begin.row) + 2)
    ensures p == d.view.begin ==> x == 6 && y == 2
    ensures 1 <= d.view.begin.col <= p.col && Offset(d.sheet, Columns, p.col) + 6 <= UINT32_MAX ==>
      x == Span(d.sheet, Columns, d.view.begin.col, p.col) + 6
    ensures 1 <= d.view.begin.row <= p.row && Offset(d.sheet, Rows, p.row) + 2 <= UINT32_MAX ==>
      y == Span(d.sheet, Rows, d.view.begin.row, p.row) + 2
  {
    var vx, vy := AbsPos(d.sheet, d.view.begin);
    var px, py := AbsPos(d.sheet, p);
    x := ToUnsigned(px as int - ToUnsigned(vx as int - 6));
    y := ToUnsigned(py as int - ToUnsigned(vy as int - 2));
    ScreenCoord(d.sheet, Columns, d.view.begin.col, p.col, 6);
    ScreenCoord(d.sheet, Rows, d.view.begin.row, p.row, 2);
  }

  // Cursor keys

  /** The keys `take_input` handles, apart from ':' (command mode) and 'i'
      (see `TakeValue`); any other key is `Unbound`. */
  datatype Key =
    | Down          // 'j'
    | Up            // 'k'
    | Right         // 'l'
    | Left          // 'h'
    | Top           // 'g'
    | ExtendDown    // 'J'
    | RetractUp     // 'K'
    | ExtendRight   // 'L'
    | RetractLeft   // 'H'
    | Bottom        // 'G'
    | Delete        // 'd'
    | Widen         // '+'
    | Narrow        // '-'
    | Unbound

  predicate Vertical(key: Key) {
    key.Down? || key.Up? || key.ExtendDown? || key.RetractUp?
  }

  predicate Horizontal(key: Key) {
    key.Right? || key.Left? || key.ExtendRight? || key.RetractLeft?
  }

  /** A selection anchored at `begin` and extending right and down to `end`,
      on the sheet's 1-based coordinates. */
  predicate Ordered(c: Range) {
    1 <= c.begin.row <= c.end.row && 1 <= c.begin.col <= c.end.col
  }

  predicate Visible(view: Range, p: Pos) {
    view.begin.row <= p.row <= view.end.row && view.begin.col <= p.col <= view.end.col
  }

  /** The effect of a key on the cursor. The plain moves collapse the
      selection onto its moved end; the capital letters move the end and keep
      the anchor; neither moves the end off the sheet's first row or column,
      nor (for a retraction) past the anchor. */
  function MoveCursor(c: Range, view: Range, key: Key): (r: Range)
    ensures Ordered(c) && 1 <= view.end.row && 1 <= view.end.col ==> Ordered(r)
    ensures key.Down? || key.Up? || key.Right? || key.Left? || key.Top? || key.Bottom? ==> r.begin == r.end
    ensures key.ExtendDown? || key.RetractUp? || key.ExtendRight? || key.RetractLeft? ==> r.begin == c.begin
    ensures Vertical(key) ==> r.end.col == c.end.col
    ensures Horizontal(key) ==> r.end.row == c.end.row
    ensures key.Down? || key.ExtendDown? ==> r.end.row == c.end.row + 1
    ensures key.Right? || key.ExtendRight? ==> r.end.col == c.end.col + 1
    ensures key.Up? ==> (r.end.row < c.end.row <==> c.end.row > 1) && c.end.row - 1 <= r.end.row <= c.end.row
    ensures key.Left? ==> (r.end.col < c.end.col <==> c.end.col > 1) && c.end.col - 1 <= r.end.col <= c.end.col
    ensures key.RetractUp? ==>
      (r.end.row < c.end.row <==> c.end.row > c.begin.row) && c.end.row - 1 <= r.end.row <= c.end.row
    ensures key.RetractLeft? ==>
      (r.end.col < c.end.col <==> c.end.col > c.begin.col) && c.end.col - 1 <= r.end.col <= c.end.col
    ensures key.Top? ==> r == A1Range
    ensures key.Bottom? ==> r.end == view.end
    ensures key.Delete? || key.Widen? || key.Narrow? || key.Unbound? ==> r == c
  {
    var e := c.end;
    match key
    case Down => Range(e.(row := e.row + 1), e.(row := e.row + 1))
    case Up =>
      var e' := if e.row > 1 then e.(row := e.row - 1) else e;
      Range(e', e')
    case Right => Range(e.(col := e.col + 1), e.(col := e.col + 1))
    case Left =>
      var e' := if e.col > 1 then e.(col := e.col - 1) else e;
      Range(e', e')
    case Top => A1Range
    case ExtendDown => c.(end := e.(row := e.row + 1))
    case RetractUp => if e.row > c.begin.row then c.(end := e.(row := e.row - 1)) else c
    case ExtendRight => c.(end := e.(col := e.col + 1))
    case RetractLeft => if e.col > c.begin.col then c.(end := e.(col := e.col - 1)) else c
    case Bottom => Range(view.end, view.end)
    case Delete => c
    case Widen => c
    case Narrow => c
    case Unbound => c
  }

  /** 'k' undoes 'j', and 'h' undoes 'l', leaving a one-cell selection. */
  lemma DownThenUp(c: Range, view: Range)
    requires 1 <= c.end.row && 1 <= c.end.col
    ensures MoveCursor(MoveCursor(c, view, Down), view, Up) == Range(c.end, c.end)
    ensures MoveCursor(MoveCursor(c, view, Right), view, Left) == Range(c.end, c.end)
  {
  }

  /** 'j' undoes 'k' except on the first row, where 'k' stays put; the
      same for 'l' after 'h' and the first column. */
  lemma UpThenDown(c: Range, view: Range)
    ensures c.end.row > 1 ==> MoveCursor(MoveCursor(c, view, Up), view, Down) == Range(c.end, c.end)
    ensures c.end.row == 1 ==> MoveCursor(c, view, Up) == Range(c.end, c.end)
    ensures c.end.col > 1 ==> MoveCursor(MoveCursor(c, view, Left), view, Right) == Range(c.end, c.end)
    ensures c.end.col == 1 ==> MoveCursor(c, view, Left) == Range(c.end, c.end)
  {
  }

  /** 'K' undoes 'J' and 'H' undoes 'L' on an ordered selection; 'J' undoes
      'K' and 'L' undoes 'H' unless the selection is one line thick, where the
      retraction does nothing. */
  lemma ExtendThenRetract(c: Range, view: Range)
    requires Ordered(c)
    ensures MoveCursor(MoveCursor(c, view, ExtendDown), view, RetractUp) == c
    ensures MoveCursor(MoveCursor(c, view, ExtendRight), view, RetractLeft) == c
    ensures c.end.row > c.begin.row ==> MoveCursor(MoveCursor(c, view, RetractUp), view, ExtendDown) == c
    ensures c.end.row == c.begin.row ==> MoveCursor(c, view, RetractUp) == c
    ensures c.end.col > c.begin.col ==> MoveCursor(MoveCursor(c, view, RetractLeft), view, ExtendRight) == c
    ensures c.end.col == c.begin.col ==> MoveCursor(c, view, RetractLeft) == c
  {
  }

  /** What `take_input` keeps true between keys: the selection is ordered,
      its end (where the terminal cursor sits) is inside the window, and the
      cell store is keyed by position. */
  predicate Valid(d: Display) {
    && Ordered(d.cursor)
    && 1 <= d.view.begin.row && 1 <= d.view.begin.col
    && Visible(d.view, d.cursor.end)
    && WellKeyed(d.sheet.cells)
  }

  /** The constructor `Display(sheet)`: the cursor on A1 and the window
      rebuilt from it by `update_view`. */
  method Init(sheet: Sheet, cols: uint32, lines: uint32) returns (d: Display)
    requires WellKeyed(sheet.cells)
    ensures Valid(d)
    ensures d.sheet == sheet && d.cursor == A1Range
    ensures FillsFrom(sheet, A1, d.view, cols, lines)
  {
    var view := UpdateView(sheet, A1, cols, lines);
    d := Display(sheet, view, A1Range);
  }

  /** 'j', 'k', 'J' and 'K': the cursor's end moves along its column and
      `update_vview` makes the window follow its row. */
  method MoveVertically(d: Display, key: Key, lines: uint32) returns (d': Display)
    requires Valid(d) && Vertical(key)
    ensures Valid(d')
    ensures d'.sheet == d.sheet && d'.cursor == MoveCursor(d.cursor, d.view, key)
    ensures Visible(d.view, d'.cursor.end) ==> d'.view == d.view
    ensures Follows(d.sheet, Rows, d.view, d'.view, d'.cursor.end.row, Room(lines, 4))
  {
    var c := MoveCursor(d.cursor, d.view, key);
    assert Ordered(c) && c.end.col == d.cursor.end.col;
    d' := UpdateVView(d.(cursor := c), lines);
    assert d'.view.begin.col == d.view.begin.col && d'.view.end.col == d.view.end.col;
  }

  /** 'l', 'h', 'L' and 'H': the cursor's end moves along its row and
      `update_hview` makes the window follow its column. */
  method MoveHorizontally(d: Display, key: Key, cols: uint32) returns (d': Display)
    requires Valid(d) && Horizontal(key)
    ensures Valid(d')
    ensures d'.sheet == d.sheet && d'.cursor == MoveCursor(d.cursor, d.view, key)
    ensures Visible(d.view, d'.cursor.end) ==> d'.view == d.view
    ensures Follows(d.sheet, Columns, d.view, d'.view, d'.cursor.end.col, Room(cols, 6))
  {
    var c := MoveCursor(d.cursor, d.view, key);
    assert Ordered(c) && c.end.row == d.cursor.end.row;
    d' := UpdateHView(d.(cursor := c), cols);
    assert d'.view.begin.row == d.view.begin.row && d'.view.end.row == d.view.end.row;
  }

  /** '+' and '-' with the column widths already changed to `t`: the cursor
      stays and `update_hview` refits the window around its column. */
  method Refit(d: Display, t: Sheet, cols: uint32) returns (d': Display)
    requires Valid(d) && WellKeyed(t.cells)
    ensures Valid(d')
    ensures d'.sheet == t && d'.cursor == d.cursor
    ensures Follows(t, Columns, d.view, d'.view, d.cursor.end.col, Room(cols, 6))
  {
    d' := UpdateHView(d.(sheet := t), cols);
  }

  /** The keys that do not move the cursor's end along an axis: 'g'
      rebuilds the window from A1, 'G' jumps to the window's end, 'd' erases
      the selection, '+' and '-' resize the cursor's column, and an unbound
      key does nothing. */
  method StepInPlace(d: Display, key: Key, cols: uint32, lines: uint32) returns (d': Display)
    requires Valid(d) && !Vertical(key) && !Horizontal(key)
    ensures Valid(d')
    ensures d'.cursor == MoveCursor(d.cursor, d.view, key)
    ensures key.Delete? ==> d'.sheet == Cleared(d.sheet, d.cursor)
    ensures key.Widen? ==> d'.sheet == IncreaseColSize(d.sheet, d.cursor.end.col)
    ensures key.Narrow? ==> d'.sheet == DecreaseColSize(d.sheet, d.cursor.end.col)
    ensures key.Top? || key.Bottom? || key.Unbound? ==> d'.sheet == d.sheet
    ensures key.Top? ==> FillsFrom(d.sheet, A1, d'.view, cols, lines)
    ensures key.Bottom? || key.Delete? || key.Unbound? ==> d'.view == d.view
    ensures key.Widen? || key.Narrow? ==> Follows(d'.sheet, Columns, d.view, d'.view, d.cursor.end.col, Room(cols, 6))
  {
    match key
    case Top =>
      d' := Init(d.sheet, cols, lines);
    case Bottom =>
      d' := d.(cursor := Range(d.view.end, d.view.end));
    case Delete =>
      var t := Remove(d.sheet, d.cursor);
      d' := d.(sheet := t);
    case Widen =>
      d' := Refit(d, IncreaseColSize(d.sheet, d.cursor.end.col), cols);
    case Narrow =>
      d' := Refit(d, DecreaseColSize(d.sheet, d.cursor.end.col), cols);
    case Unbound =>
      d' := d;
  }

  /** One pass of the `take_input` loop for `key`: the cursor moves as
      `MoveCursor` says, the sheet changes only for 'd', '+' and '-', and the
      window follows the cursor along the axis it moved on, staying put when
      the cursor is still visible. */
  method Step(d: Display, key: Key, cols: uint32, lines: uint32) returns (d': Display)
    requires Valid(d)
    ensures Valid(d')
    ensures d'.cursor == MoveCursor(d.cursor, d.view, key)
    ensures key.Delete? ==> d'.sheet == Cleared(d.sheet, d.cursor)
    ensures key.Widen? ==> d'.sheet == IncreaseColSize(d.sheet, d.cursor.end.col)
    ensures key.Narrow? ==> d'.sheet == DecreaseColSize(d.sheet, d.cursor.end.col)
    ensures !(key.Delete? || key.Widen? || key.Narrow?) ==> d'.sheet == d.sheet
    ensures key.Top? ==> FillsFrom(d.sheet, A1, d'.view, cols, lines)
    ensures !key.Top? && Visible(d.view, d'.cursor.end) ==> d'.view == d.view
    ensures Vertical(key) ==> Follows(d.sheet, Rows, d.view, d'.view, d'.cursor.end.row, Room(lines, 4))
    ensures Horizontal(key) ==> Follows(d.sheet, Columns, d.view, d'.view, d'.cursor.end.col, Room(cols, 6))
    ensures key.Widen? || key.Narrow? ==> Follows(d'.sheet, Columns, d.view, d'.view, d.cursor.end.col, Room(cols, 6))
  {
    if Vertical(key) {
      d' := MoveVertically(d, key, lines);
    } else if Horizontal(key) {
      d' := MoveHorizontally(d, key, cols);
    } else {
      d' := StepInPlace(d, key, cols, lines);
    }
  }

  /** The key 'i', `take_value`: the typed line is parsed and its value
      written over the whole selection. A line `parse` rejects throws from
      `take_value` through `take_input` and `main`, which catch nothing, so
      `std::terminate` ends the program: the terminal has already been put
      back in cooked mode, but the destructor that leaves the alternate
      screen need not run. `Err` stands for that end. */
  method TakeValue(d: Display, line: string, indexOf: (Range, Pos) -> uint32) returns (r: Result<Display, ParseError>)
    requires Valid(d)
    ensures r.Err? <==> ParseValue(line).Err?
    ensures r.Err? ==> r.error == ParseValue(line).error
    ensures r.Ok? ==> Valid(r.value) && r.value.view == d.view && r.value.cursor == d.cursor
    ensures r.Ok? ==> r.value.sheet == Filled(d.sheet, d.cursor, ParseValue(line).value, indexOf)
  {
    var parsed := ParseValue(line);
    match parsed
    case Err(e) =>
      r := Err(e);
    case Ok(v) =>
      var t := Insert(d.sheet, d.cursor, v, indexOf);
      r := Ok(d.(sheet := t));
  }

  /** An empty line and a lone point are lines `parse` rejects, so 'i'
      followed by either ends the program. */
  lemma TakeValueRejects()
    ensures ParseValue("") == Err(InvalidArgument)
    ensures ParseValue(".") == Err(InvalidArgument)
  {
  }

  /** The key 'i' with `parse` leaving an unconvertible line as a string,
      as its comment describes: every line is written over the selection,
      and a line `parse` would reject is stored as text. */
  method TakeValueAsText(d: Display, line: string, indexOf: (Range, Pos) -> uint32) returns (d': Display)
    requires Valid(d)
    ensures Valid(d')
    ensures d'.view == d.view && d'.cursor == d.cursor
    ensures ParseValue(line).Ok? ==> d'.sheet == Filled(d.sheet, d.cursor, ParseValue(line).value, indexOf)
    ensures ParseValue(line).Err? ==> d'.sheet == Filled(d.sheet, d.cursor, Values.Text(line), indexOf)
  {
    ParseOrTextAgrees(line);
    var t := Insert(d.sheet, d.cursor, ParseOrText(line), indexOf);
    d' := d.(sheet := t);
  }
}

=== FILE: machine_ints.dfy ===
/** Fixed-width integer arithmetic of the C++ program, written out over
    Dafny's unbounded integers: `unsigned int` and `int` are 32 bits wide. */
module MachineInts {

  const UINT32_MODULUS: int := 0x1_0000_0000
  const UINT32_MAX: int := 0xffff_ffff
  const INT32_MIN: int := -0x8000_0000
  const INT32_MAX: int := 0x7fff_ffff

  /** C++ `unsigned int` */
  type uint32 = x: int | 0 <= x <= 0xffff_ffff

  /** C++ `int` */
  type int32 = x: int | -0x8000_0000 <= x <= 0x7fff_ffff

  /** Reduction into `unsigned int`: what unsigned arithmetic and conversion do. */
  function ToUnsigned(x: int): (r: uint32)
    ensures 0 <= x <= UINT32_MAX ==> r == x
    ensures (x - r) % UINT32_MODULUS == 0
  {
    x % UINT32_MODULUS
  }

  /** Two's-complement reduction into `int`: the conversion `(int)u` of an
      unsigned value, and signed addition on the usual targets. */
  function ToSigned(x: int): (r: int32)
    ensures INT32_MIN <= x <= INT32_MAX ==> r == x
    ensures (x - r) % UINT32_MODULUS == 0
  {
    var u := x % UINT32_MODULUS;
    if u <= INT32_MAX then u else u - UINT32_MODULUS
  }

  /** Reductions only depend on the residue modulo 2^32. */
  lemma CongruentReduce(x: int, y: int)
    requires (x - y) % UINT32_MODULUS == 0
    ensures ToUnsigned(x) == ToUnsigned(y)
    ensures ToSigned(x) == ToSigned(y)
  {
    var k := (x - y) / UINT32_MODULUS;
    assert x == y + k * UINT32_MODULUS;
  }

  /** Congruence modulo 2^32 is transitive. */
  lemma CongruentTrans(x: int, y: int, z: int)
    requires (x - y) % UINT32_MODULUS == 0
    requires (y - z) % UINT32_MODULUS == 0
    ensures (x - z) % UINT32_MODULUS == 0
  {
    var k := (x - y) / UINT32_MODULUS;
    var l := (y - z) / UINT32_MODULUS;
    assert x - z == (k + l) * UINT32_MODULUS;
  }

  /** Adding two offsets to a signed value one after the other, or adding
      their unsigned sum once, lands on the same `int`. */
  lemma SignedAddTwice(i: int, a: int, b: int)
    ensures ToSigned(ToSigned(i + a) + b) == ToSigned(i + ToUnsigned(a + b))
  {
    var once := ToSigned(i + a);
    var u := ToUnsigned(a + b);
    assert ((once + b) - (i + a + b)) % UINT32_MODULUS == 0;
    assert ((i + a + b) - (i + u)) % UINT32_MODULUS == 0;
    CongruentTrans(once + b, i + a + b, i + u);
    CongruentReduce(once + b, i + u);
  }

  /** Subtraction respects congruence modulo 2^32. */
  lemma CongruentSub(a: int, b: int, x: int, y: int)
    requires (a - x) % UINT32_MODULUS == 0
    requires (b - y) % UINT32_MODULUS == 0
    ensures ToUnsigned(a - b) == ToUnsigned(x - y)
  {
    var k := (a - x) / UINT32_MODULUS;
    var l := (b - y) / UINT32_MODULUS;
    assert (a - b) - (x - y) == (k - l) * UINT32_MODULUS;
    CongruentReduce(a - b, x - y);
  }

  /** Subtracting a reduced `b - m` from a reduced `a` lands where the exact
      `a - b + m` does: the pattern of a screen position computed from two
      wrapped absolute positions. */
  lemma ShiftedDifference(a: int, b: int, m: int)
    ensures ToUnsigned(ToUnsigned(a) - ToUnsigned(ToUnsigned(b) - m)) == ToUnsigned(a - (b - m))
  {
    CongruentTrans(ToUnsigned(ToUnsigned(b) - m), ToUnsigned(b) - m, b - m);
    CongruentSub(ToUnsigned(a), ToUnsigned(ToUnsigned(b) - m), a, b - m);
  }
}

=== FILE: numerals.dfy ===
/** Decimal numerals: the digits `std::isdigit` accepts, the value `std::stoi`
    reads from a run of digits, and the text `std::to_string` writes for an
    integer. */
module Numerals {

  predicate IsDigit(c: char) {
    '0' <= c <= '9'
  }

  function DigitValue(c: char): (d: nat)
    requires IsDigit(c)
    ensures d < 10
  {
    (c as int) - ('0' as int)
  }

  function DigitChar(d: nat): (c: char)
    requires d < 10
    ensures IsDigit(c) && DigitValue(c) == d
  {
    (('0' as int) + d) as char
  }

  predicate AllDigits(s: string) {
    forall i | 0 <= i < |s| :: IsDigit(s[i])
  }

  /** The value of a run of decimal digits, most significant digit first. */
  function ValueOf(s: string): nat
    requires AllDigits(s)
  {
    if s == [] then 0 else ValueOf(s[..|s| - 1]) * 10 + DigitValue(s[|s| - 1])
  }

  /** `std::to_string` of a non-negative integer. */
  function NatToString(n: nat): (r: string)
    ensures 0 < |r| && AllDigits(r)
    decreases n
  {
    if n < 10 then [DigitChar(n)] else NatToString(n / 10) + [DigitChar(n % 10)]
  }

  /** `std::to_string` of an integer: a minus sign before negative numbers. */
  function IntToString(i: int): (r: string)
    ensures 0 < |r|
    ensures i >= 0 <==> AllDigits(r)
  {
    if i < 0 then
      var r := "-" + NatToString(-i);
      assert !IsDigit(r[0]);
      r
    else NatToString(i)
  }

  /** Reading back the digits `std::to_string` writes gives the number. */
  lemma {:induction false} ValueOfNatToString(n: nat)
    ensures ValueOf(NatToString(n)) == n
    decreases n
  {
    var r := NatToString(n);
    if n >= 10 {
      ValueOfNatToString(n / 10);
      assert r[..|r| - 1] == NatToString(n / 10);
    }
  }
}

=== FILE: outcomes.dfy ===
/** The result of an operation that can throw. */
module Outcomes {

  datatype Result<+T, +E> = Ok(value: T) | Err(error: E)
}

=== FILE: parsing.dfy ===
/** `Sheet::parse`: the text a user types becomes an integer, a decimal or a
    string. */
module Parsing {
  import opened MachineInts
  import opened Numerals
  import opened Values
  import opened Outcomes

  /** The exceptions `std::stoi` and `std::stod` throw. */
  datatype ParseError = InvalidArgument | OutOfRange

  predicate DigitsAndDots(s: string) {
    forall i | 0 <= i < |s| :: IsDigit(s[i]) || s[i] == '.'
  }

  predicate AtMostOneDot(s: string) {
    forall i, j | 0 <= i < j < |s| :: !(s[i] == '.' && s[j] == '.')
  }

  predicate HasDot(s: string) {
    exists i | 0 <= i < |s| :: s[i] == '.'
  }

  predicate HasDigit(s: string) {
    exists i | 0 <= i < |s| :: IsDigit(s[i])
  }

  /** The texts the classifying loop lets through to a numeric conversion:
      digits and at most one point. */
  predicate NumberShaped(s: string) {
    DigitsAndDots(s) && AtMostOneDot(s)
  }

  /** What the classifying loop decides: a string, or a number with or
      without a fractional part. */
  datatype Shape = NotNumber | Number(frac: bool)

  /** The classifying loop from index `i` on, `frac` recording whether the
      point has been seen. */
  function Scan(s: string, i: nat, frac: bool): (r: Shape)
    requires i <= |s|
    requires NumberShaped(s[..i])
    requires frac <==> HasDot(s[..i])
    ensures r.NotNumber? <==> !NumberShaped(s)
    ensures r.Number? ==> (r.frac <==> HasDot(s))
    decreases |s| - i
  {
    if i == |s| then
      assert s[..i] == s;
      Number(frac)
    else
      assert s[..i + 1] == s[..i] + [s[i]];
      if IsDigit(s[i]) then
        Scan(s, i + 1, frac)
      else if s[i] == '.' && !frac then
        Scan(s, i + 1, true)
      else
        assert !NumberShaped(s) by {
          if s[i] == '.' {
            var j :| 0 <= j < i && s[..i][j] == '.';
            assert s[j] == '.' && s[i] == '.';
          } else {
            assert !(IsDigit(s[i]) || s[i] == '.');
          }
        }
        NotNumber
  }

  /** `std::stoi` on a run of digits. */
  function Stoi(s: string): Result<int32, ParseError>
    requires AllDigits(s)
  {
    if |s| == 0 then Err(InvalidArgument)
    else if ValueOf(s) > INT32_MAX then Err(OutOfRange)
    else Ok(ValueOf(s))
  }

  /** `std::stod` on digits around one point; with no digit at all nothing
      is converted. */
  function Stod(s: string): Result<Binary64, ParseError> {
    if HasDigit(s) then Ok(Decimal(s)) else Err(InvalidArgument)
  }

  lemma FirstTwoNotBothDots(s: string)
    requires |s| >= 2 && AtMostOneDot(s)
    ensures !(s[0] == '.' && s[1] == '.')
  {
  }

  /** A number-shaped text without a digit is empty or a lone point. */
  lemma NoDigitNumeral(s: string)
    requires NumberShaped(s) && !HasDigit(s)
    ensures s == "" || s == "."
  {
    if |s| >= 2 {
      FirstTwoNotBothDots(s);
      assert false;
    }
  }

  /** `Sheet::parse`: any character other than a digit or the first point
      makes the text a string; otherwise the text is converted with `stoi`
      when it has no point and with `stod` when it has one, and the
      conversion's exception propagates. */
  function ParseValue(s: string): (r: Result<Value, ParseError>)
    ensures (r.Ok? && r.value.Text?) <==> !NumberShaped(s)
    ensures r.Ok? && r.value.Text? ==> r.value.s == s
    ensures NumberShaped(s) && !HasDot(s) ==>
      && AllDigits(s)
      && (r.Ok? <==> 0 < |s| && ValueOf(s) <= INT32_MAX)
      && (r.Ok? ==> r.value == Integer(ValueOf(s)))
    ensures NumberShaped(s) && HasDot(s) ==> (r.Ok? <==> HasDigit(s)) && (r.Ok? ==> r.value == Double(Decimal(s)))
    ensures r == Err(InvalidArgument) <==> s == "" || s == "."
    ensures r == Err(OutOfRange) <==> AllDigits(s) && ValueOf(s) > INT32_MAX
  {
    assert s[..0] == [];
    match Scan(s, 0, false)
    case NotNumber => Ok(Text(s))
    case Number(frac) =>
      if frac then
        assert !HasDigit(s) ==> s == "" || s == "." by {
          if !HasDigit(s) { NoDigitNumeral(s); }
        }
        assert s == "." ==> HasDot(s) && !AllDigits(s);
        match Stod(s)
        case Ok(d) => Ok(Double(d))
        case Err(e) => Err(e)
      else
        assert AllDigits(s) by {
          forall i | 0 <= i < |s| ensures IsDigit(s[i]) {
            assert s[i] != '.';
          }
        }
        assert s == "." ==> HasDot(s);
        match Stoi(s)
        case Ok(i) => Ok(Integer(i))
        case Err(e) => Err(e)
  }

  /** `Sheet::parse` as its own comment describes it: a text is converted
      to an int or a double, or else left as a string. A text `std::stoi` or
      `std::stod` cannot convert is kept as that string instead of throwing. */
  function ParseOrText(s: string): (r: Value)
    ensures r.Text? ==> r.s == s
    ensures r.Integer? <==> AllDigits(s) && 0 < |s| && ValueOf(s) <= INT32_MAX
    ensures r.Integer? ==> r.i == ValueOf(s)
    ensures r.Double? <==> NumberShaped(s) && HasDot(s) && HasDigit(s)
    ensures r.Double? ==> r.d == Decimal(s)
  {
    match ParseValue(s)
    case Ok(v) => v
    case Err(_) => Text(s)
  }

  /** The lenient parse agrees with `parse` wherever `parse` succeeds, and
      turns exactly the texts `parse` rejects into strings. */
  lemma ParseOrTextAgrees(s: string)
    ensures ParseValue(s).Ok? ==> ParseOrText(s) == ParseValue(s).value
    ensures ParseValue(s).Err? <==> ParseOrText(s).Text? && NumberShaped(s)
  {
  }

  /** A non-negative integer written by `eval` parses back to itself. */
  lemma ParseEvalNonNegative(i: int32, formatDouble: Binary64 -> string)
    requires i >= 0
    ensures ParseValue(Eval(Integer(i), formatDouble)) == Ok(Integer(i))
  {
    var t := Eval(Integer(i), formatDouble);
    assert !HasDot(t) && NumberShaped(t) by {
      assert forall k | 0 <= k < |t| :: IsDigit(t[k]);
    }
  }

  /** A negative integer written by `eval` parses back as a string, since
      the minus sign is not a digit. */
  lemma ParseEvalNegative(i: int32, formatDouble: Binary64 -> string)
    requires i < 0
    ensures ParseValue(Eval(Integer(i), formatDouble)) == Ok(Text(IntToString(i)))
  {
    var t := Eval(Integer(i), formatDouble);
    assert t[0] == '-' && !NumberShaped(t);
  }

  /** A string with a character other than a digit or a point is written by
      `eval` verbatim and parses back to itself. */
  lemma ParseEvalText(s: string, formatDouble: Binary64 -> string)
    requires !DigitsAndDots(s)
    ensures ParseValue(Eval(Text(s), formatDouble)) == Ok(Text(s))
  {
  }
}

=== FILE: sheet.dfy ===
/** `Sheet`: the sparse cell store with its sparse column widths and row
    heights. */
module Sheets {
  import opened MachineInts
  import opened Values
  import opened Cells

  const DEFAULT_WIDTH: uint32 := 10
  const DEFAULT_HEIGHT: uint32 := 1

  /** `m_col_siz`, `m_row_siz` and `m_cells`. The cell map is keyed by
      structural equality of positions; see `Cells.NotStrictWeakOrder` for why
      the source's own map cannot be described by its comparison. */
  datatype Sheet = Sheet(colSizes: map<nat, uint32>, rowSizes: map<nat, uint32>, cells: map<Pos, Cell>)

  /** `Sheet(void)` */
  const EmptySheet: Sheet := Sheet(map[], map[], map[])

  /** Every stored cell records the key it is stored under. */
  predicate WellKeyed(cells: map<Pos, Cell>) {
    forall k | k in cells :: cells[k].pos == k
  }

  /** Both maps have the same entry, or both lack one, at `p`. */
  predicate SameAt(m: map<Pos, Cell>, m': map<Pos, Cell>, p: Pos) {
    (p in m <==> p in m') && (p in m ==> m[p] == m'[p])
  }

  // Column widths and row heights

  function Sizes(s: Sheet, axis: Axis): map<nat, uint32> {
    match axis
    case Columns => s.colSizes
    case Rows => s.rowSizes
  }

  function DefaultSize(axis: Axis): uint32 {
    match axis
    case Columns => DEFAULT_WIDTH
    case Rows => DEFAULT_HEIGHT
  }

  /** `get_col_siz` / `get_row_siz`: the override if there is one, else the
      default. */
  function Size(s: Sheet, axis: Axis, i: nat): (r: uint32)
    ensures i in Sizes(s, axis) ==> r == Sizes(s, axis)[i]
    ensures i !in Sizes(s, axis) ==> r == DefaultSize(axis) && r > 0
  {
    var m := Sizes(s, axis);
    if i in m then m[i] else DefaultSize(axis)
  }

  /** `get_col_siz`: a column's set width, or 10. */
  function ColSize(s: Sheet, i: nat): (r: uint32)
    ensures i in s.colSizes ==> r == s.colSizes[i]
    ensures i !in s.colSizes ==> r == 10
  {
    Size(s, Columns, i)
  }

  /** `get_row_siz`: a row's set height, or 1. */
  function RowSize(s: Sheet, i: nat): (r: uint32)
    ensures i in s.rowSizes ==> r == s.rowSizes[i]
    ensures i !in s.rowSizes ==> r == 1
  {
    Size(s, Rows, i)
  }

  /** On a fresh sheet every column is 10 wide and every row 1 high. */
  lemma EmptySheetSizes(i: nat)
    ensures ColSize(EmptySheet, i) == 10 && RowSize(EmptySheet, i) == 1
  {
  }

  /** `set_col_siz` */
  function SetColSize(s: Sheet, i: nat, w: uint32): (r: Sheet)
    ensures ColSize(r, i) == w
    ensures forall j :: j != i ==> ColSize(r, j) == ColSize(s, j)
    ensures forall j :: RowSize(r, j) == RowSize(s, j)
    ensures r.cells == s.cells
  {
    s.(colSizes := s.colSizes[i := w])
  }

  /** `set_row_siz` */
  function SetRowSize(s: Sheet, i: nat, h: uint32): (r: Sheet)
    ensures RowSize(r, i) == h
    ensures forall j :: j != i ==> RowSize(r, j) == RowSize(s, j)
    ensures forall j :: ColSize(r, j) == ColSize(s, j)
    ensures r.cells == s.cells
  {
    s.(rowSizes := s.rowSizes[i := h])
  }

  /** The entry `m_col_siz[i]` after a first touch stores the default. */
  function Touched(s: Sheet, i: nat): (m: map<nat, uint32>)
    ensures i in m && m[i] == ColSize(s, i)
    ensures forall j :: j != i ==> (j in m <==> j in s.colSizes) && (j in m ==> m[j] == s.colSizes[j])
  {
    if i in s.colSizes then s.colSizes else s.colSizes[i := DEFAULT_WIDTH]
  }

  /** `increase_col_siz`: one wider, in unsigned arithmetic. */
  function IncreaseColSize(s: Sheet, i: nat): (r: Sheet)
    ensures ColSize(r, i) == ToUnsigned(ColSize(s, i) + 1)
    ensures ColSize(s, i) < UINT32_MAX ==> ColSize(r, i) == ColSize(s, i) + 1
    ensures i !in s.colSizes ==> ColSize(r, i) == DEFAULT_WIDTH + 1
    ensures forall j :: j != i ==> ColSize(r, j) == ColSize(s, j)
    ensures r.rowSizes == s.rowSizes && r.cells == s.cells
  {
    var m := Touched(s, i);
    s.(colSizes := m[i := ToUnsigned(m[i] as int + 1)])
  }

  /** `decrease_col_siz`: one narrower, in unsigned arithmetic, so a column of
      width 0 becomes 2^32 - 1 wide. */
  function DecreaseColSize(s: Sheet, i: nat): (r: Sheet)
    ensures ColSize(r, i) == ToUnsigned(ColSize(s, i) - 1)
    ensures ColSize(s, i) > 0 ==> ColSize(r, i) == ColSize(s, i) - 1
    ensures ColSize(s, i) == 0 ==> ColSize(r, i) == UINT32_MAX
    ensures i !in s.colSizes ==> ColSize(r, i) == DEFAULT_WIDTH - 1
    ensures forall j :: j != i ==> ColSize(r, j) == ColSize(s, j)
    ensures r.rowSizes == s.rowSizes && r.cells == s.cells
  {
    var m := Touched(s, i);
    s.(colSizes := m[i := ToUnsigned(m[i] as int - 1)])
  }

  /** Widening then narrowing a column restores every width. */
  lemma IncreaseThenDecrease(s: Sheet, i: nat)
    ensures forall j :: ColSize(DecreaseColSize(IncreaseColSize(s, i), i), j) == ColSize(s, j)
  {
    var w := ColSize(s, i);
    assert ColSize(DecreaseColSize(IncreaseColSize(s, i), i), i) == w by {
      if w == UINT32_MAX {
        assert ColSize(IncreaseColSize(s, i), i) == 0;
      }
    }
  }

  // Character offsets

  /** The total size of lines `b .. e-1` along `axis`. */
  function Span(s: Sheet, axis: Axis, b: nat, e: nat): nat
    decreases e
  {
    if e <= b then 0 else Span(s, axis, b, e - 1) + Size(s, axis, e - 1)
  }

  /** The distance of line `c` from the sheet's origin, before any 32-bit
      wrap-around: the sizes of lines `1 .. c-1`. */
  function Offset(s: Sheet, axis: Axis, c: nat): nat {
    Span(s, axis, 1, c)
  }

  lemma {:induction false} SpanSplit(s: Sheet, axis: Axis, b: nat, m: nat, e: nat)
    requires b <= m <= e
    ensures Span(s, axis, b, e) == Span(s, axis, b, m) + Span(s, axis, m, e)
    decreases e
  {
    if m < e {
      SpanSplit(s, axis, b, m, e - 1);
    }
  }

  /** Line 1 is at offset 0, and each line starts where the previous one
      ends. */
  lemma OffsetStep(s: Sheet, axis: Axis, c: nat)
    requires 1 <= c
    ensures Offset(s, axis, 1) == 0
    ensures Offset(s, axis, c + 1) == Offset(s, axis, c) + Size(s, axis, c)
  {
  }

  /** Offsets never decrease along a row or a column, and the difference of
      two offsets is the size of the lines between them. */
  lemma OffsetDifference(s: Sheet, axis: Axis, b: nat, e: nat)
    requires 1 <= b <= e
    ensures Offset(s, axis, b) <= Offset(s, axis, e)
    ensures Offset(s, axis, e) - Offset(s, axis, b) == Span(s, axis, b, e)
  {
    SpanSplit(s, axis, 1, b, e);
  }

  /** `get_abs_pos`: the character position of `p`'s top-left corner
      relative to the sheet's origin, accumulated in unsigned arithmetic. */
  method AbsPos(s: Sheet, p: Pos) returns (x: uint32, y: uint32)
    ensures x == ToUnsigned(Offset(s, Columns, p.col))
    ensures y == ToUnsigned(Offset(s, Rows, p.row))
    ensures Offset(s, Columns, p.col) <= UINT32_MAX ==> x == Offset(s, Columns, p.col)
    ensures Offset(s, Rows, p.row) <= UINT32_MAX ==> y == Offset(s, Rows, p.row)
  {
    x, y := 0, 0;
    var i: nat := 1;
    while i < p.col
      invariant 1 <= i && (i <= p.col || i == 1)
      invariant x == ToUnsigned(Offset(s, Columns, i))
    {
      CongruentReduce(x + ColSize(s, i), Offset(s, Columns, i) + ColSize(s, i));
      x := ToUnsigned(x + ColSize(s, i));
      i := i + 1;
    }
    assert Offset(s, Columns, p.col) == Offset(s, Columns, i);
    i := 1;
    while i < p.row
      invariant 1 <= i && (i <= p.row || i == 1)
      invariant y == ToUnsigned(Offset(s, Rows, i))
    {
      CongruentReduce(y + RowSize(s, i), Offset(s, Rows, i) + RowSize(s, i));
      y := ToUnsigned(y + RowSize(s, i));
      i := i + 1;
    }
    assert Offset(s, Rows, p.row) == Offset(s, Rows, i);
  }

  // Filling and clearing rectangles

  /** The cell `insert` stores at `p`: the value advanced by `p`'s index in
      the range. `Range::index_of` is not part of this model and is passed in
      as `indexOf`. */
  function FillCell(r: Range, v: Value, indexOf: (Range, Pos) -> uint32, p: Pos): Cell {
    Cell(p, Plus(v, indexOf(r, p)))
  }

  /** The sheet after filling `r` with `v`, as a reference for `Insert`. */
  function Filled(s: Sheet, r: Range, v: Value, indexOf: (Range, Pos) -> uint32): (t: Sheet)
    ensures forall p :: InRect(r, p) ==> p in t.cells && t.cells[p] == FillCell(r, v, indexOf, p)
    ensures forall p :: !InRect(r, p) ==> SameAt(t.cells, s.cells, p)
    ensures t.colSizes == s.colSizes && t.rowSizes == s.rowSizes
    ensures WellKeyed(s.cells) ==> WellKeyed(t.cells)
  {
    s.(cells := s.cells + map p | p in Rect(r) :: FillCell(r, v, indexOf, p))
  }

  /** The sheet after erasing every position of `r`, as a reference for
      `Remove`. */
  function Cleared(s: Sheet, r: Range): (t: Sheet)
    ensures forall p :: InRect(r, p) ==> p !in t.cells
    ensures forall p :: !InRect(r, p) ==> SameAt(t.cells, s.cells, p)
    ensures t.colSizes == s.colSizes && t.rowSizes == s.rowSizes
    ensures WellKeyed(s.cells) ==> WellKeyed(t.cells)
  {
    s.(cells := s.cells - Rect(r))
  }

  /** `insert`: column by column, row by row, store the filled cell. */
  method Insert(s: Sheet, r: Range, v: Value, indexOf: (Range, Pos) -> uint32) returns (t: Sheet)
    ensures t == Filled(s, r, v, indexOf)
  {
    var cells := s.cells;
    var col := r.begin.col;
    while col <= r.end.col
      invariant r.begin.col <= col
      invariant forall p :: InRect(r, p) && p.col < col ==> p in cells && cells[p] == FillCell(r, v, indexOf, p)
      invariant forall p :: !(InRect(r, p) && p.col < col) ==> SameAt(cells, s.cells, p)
      decreases r.end.col + 1 - col
    {
      cells := FillColumn(cells, r, v, indexOf, col);
      col := col + 1;
    }
    t := s.(cells := cells);
    FilledPointwise(s, r, v, indexOf, cells);
  }

  /** The inner loop of `insert`: the rows of range `r` in column `col`. */
  method FillColumn(cells: map<Pos, Cell>, r: Range, v: Value, indexOf: (Range, Pos) -> uint32, col: nat)
    returns (cells': map<Pos, Cell>)
    requires r.begin.col <= col <= r.end.col
    ensures forall p :: InRect(r, p) && p.col == col ==> p in cells' && cells'[p] == FillCell(r, v, indexOf, p)
    ensures forall p :: !(InRect(r, p) && p.col == col) ==> SameAt(cells', cells, p)
  {
    cells' := cells;
    var row := r.begin.row;
    while row <= r.end.row
      invariant r.begin.row <= row
      invariant forall p :: InRect(r, p) && p.col == col && p.row < row ==>
        p in cells' && cells'[p] == FillCell(r, v, indexOf, p)
      invariant forall p :: !(InRect(r, p) && p.col == col && p.row < row) ==> SameAt(cells', cells, p)
      decreases r.end.row + 1 - row
    {
      cells' := cells'[Pos(row, col) := FillCell(r, v, indexOf, Pos(row, col))];
      row := row + 1;
    }
  }

  /** `remove`: column by column, row by row, erase the position, present
      or not. */
  method Remove(s: Sheet, r: Range) returns (t: Sheet)
    ensures t == Cleared(s, r)
  {
    var cells := s.cells;
    var col := r.begin.col;
    while col <= r.end.col
      invariant r.begin.col <= col
      invariant forall p :: InRect(r, p) && p.col < col ==> p !in cells
      invariant forall p :: !(InRect(r, p) && p.col < col) ==> SameAt(cells, s.cells, p)
      decreases r.end.col + 1 - col
    {
      cells := ClearColumn(cells, r, col);
      col := col + 1;
    }
    t := s.(cells := cells);
    ClearedPointwise(s, r, cells);
  }

  /** The inner loop of `remove`: the rows of range `r` in column `col`. */
  method ClearColumn(cells: map<Pos, Cell>, r: Range, col: nat) returns (cells': map<Pos, Cell>)
    requires r.begin.col <= col <= r.end.col
    ensures forall p :: InRect(r, p) && p.col == col ==> p !in cells'
    ensures forall p :: !(InRect(r, p) && p.col == col) ==> SameAt(cells', cells, p)
  {
    cells' := cells;
    var row := r.begin.row;
    while row <= r.end.row
      invariant r.begin.row <= row
      invariant forall p :: InRect(r, p) && p.col == col && p.row < row ==> p !in cells'
      invariant forall p :: !(InRect(r, p) && p.col == col && p.row < row) ==> SameAt(cells', cells, p)
      decreases r.end.row + 1 - row
    {
      cells' := cells' - {Pos(row, col)};
      row := row + 1;
    }
  }

  /** A cell map that holds the filled cells inside `r` and agrees with `s`
      outside it is the cell map of `Filled(s, r, v, indexOf)`. */
  lemma FilledPointwise(s: Sheet, r: Range, v: Value, indexOf: (Range, Pos) -> uint32, cells: map<Pos, Cell>)
    requires forall p :: InRect(r, p) ==> p in cells && cells[p] == FillCell(r, v, indexOf, p)
    requires forall p :: !InRect(r, p) ==> SameAt(cells, s.cells, p)
    ensures s.(cells := cells) == Filled(s, r, v, indexOf)
  {
    var f := Filled(s, r, v, indexOf);
    forall p ensures SameAt(cells, f.cells, p) {
      if !InRect(r, p) {
        assert SameAt(f.cells, s.cells, p);
      }
    }
    SameEverywhere(s.(cells := cells), f);
  }

  /** A cell map without the positions of `r` that agrees with `s` outside
      them is the cell map of `Cleared(s, r)`. */
  lemma ClearedPointwise(s: Sheet, r: Range, cells: map<Pos, Cell>)
    requires forall p :: InRect(r, p) ==> p !in cells
    requires forall p :: !InRect(r, p) ==> SameAt(cells, s.cells, p)
    ensures s.(cells := cells) == Cleared(s, r)
  {
    var c := Cleared(s, r);
    forall p ensures SameAt(cells, c.cells, p) {
      if !InRect(r, p) {
        assert SameAt(c.cells, s.cells, p);
      }
    }
    SameEverywhere(s.(cells := cells), c);
  }

  /** Two sheets with the same sizes and the same entry at every position
      are equal. */
  lemma SameEverywhere(s: Sheet, t: Sheet)
    requires s.colSizes == t.colSizes && s.rowSizes == t.rowSizes
    requires forall p :: SameAt(s.cells, t.cells, p)
    ensures s == t
  {
    assert s.cells.Keys == t.cells.Keys by {
      forall p | p in s.cells ensures p in t.cells {
        assert SameAt(s.cells, t.cells, p);
      }
      forall p | p in t.cells ensures p in s.cells {
        assert SameAt(s.cells, t.cells, p);
      }
    }
    assert s.cells == t.cells by {
      forall p | p in s.cells ensures s.cells[p] == t.cells[p] {
        assert SameAt(s.cells, t.cells, p);
      }
    }
  }

  /** A range whose end precedes its begin in either coordinate is empty:
      filling or clearing it changes nothing. */
  lemma EmptyRangeNoOp(s: Sheet, r: Range, v: Value, indexOf: (Range, Pos) -> uint32)
    requires r.end.col < r.begin.col || r.end.row < r.begin.row
    ensures Filled(s, r, v, indexOf) == s
    ensures Cleared(s, r) == s
  {
    SameEverywhere(Filled(s, r, v, indexOf), s);
    SameEverywhere(Cleared(s, r), s);
  }

  /** Clearing a range just filled leaves what clearing it would have left
      before the fill. */
  lemma ClearAfterFill(s: Sheet, r: Range, v: Value, indexOf: (Range, Pos) -> uint32)
    ensures Cleared(Filled(s, r, v, indexOf), r) == Cleared(s, r)
  {
    var a, b := Cleared(Filled(s, r, v, indexOf), r), Cleared(s, r);
    forall p ensures SameAt(a.cells, b.cells, p) {
      if !InRect(r, p) {
        assert SameAt(Filled(s, r, v, indexOf).cells, s.cells, p);
      }
    }
    SameEverywhere(a, b);
  }

  /** Filling the same range twice with the same value is filling it once. */
  lemma FillIdempotent(s: Sheet, r: Range, v: Value, indexOf: (Range, Pos) -> uint32)
    ensures Filled(Filled(s, r, v, indexOf), r, v, indexOf) == Filled(s, r, v, indexOf)
  {
    var once := Filled(s, r, v, indexOf);
    var twice := Filled(once, r, v, indexOf);
    forall p ensures SameAt(twice.cells, once.cells, p) {
    }
    SameEverywhere(twice, once);
  }

  // Range queries

  /** The keys the scan of `get_cells` keeps: not before `begin` and not
      after `end` under `Cell::Pos::operator<`. */
  predicate InScan(r: Range, k: Pos) {
    !Less(k, r.begin) && !Less(r.end, k)
  }

  /** `get_cells`: nothing when `end < begin`; otherwise the stored cells
      from `lower_bound(begin)` up to `upper_bound(end)`, taken here as the
      keys in `InScan`. */
  function GetCells(s: Sheet, r: Range): (cs: set<Cell>)
    ensures Less(r.end, r.begin) ==> cs == {}
    ensures forall c :: c in cs ==> c in s.cells.Values
    ensures forall k :: k in s.cells && InRect(r, k) ==> s.cells[k] in cs
  {
    if Less(r.end, r.begin) then {} else set k | k in s.cells && InScan(r, k) :: s.cells[k]
  }

  /** The scan is not a rectangle filter: for the range (1,1)-(2,2) it also
      returns the cell at row 1, column 5. */
  lemma GetCellsBeyondRect()
    ensures var c := Cell(Pos(1, 5), Integer(7));
            var s := EmptySheet.(cells := map[Pos(1, 5) := c]);
            var r := Range(Pos(1, 1), Pos(2, 2));
            !InRect(r, c.pos) && c in GetCells(s, r)
  {
    var c := Cell(Pos(1, 5), Integer(7));
    var s := EmptySheet.(cells := map[Pos(1, 5) := c]);
    var r := Range(Pos(1, 1), Pos(2, 2));
    assert InScan(r, c.pos) && s.cells[c.pos] == c;
  }

  /** After `remove(r)` the query over `r` returns no cell inside `r`. */
  lemma GetCellsAfterRemove(s: Sheet, r: Range)
    requires WellKeyed(s.cells)
    ensures forall c :: c in GetCells(Cleared(s, r), r) ==> !InRect(r, c.pos)
  {
    var t := Cleared(s, r);
    forall c | c in GetCells(t, r) ensures !InRect(r, c.pos) {
      var k :| k in t.cells && t.cells[k] == c;
    }
  }

  /** After `insert(r, v)` the query over `r` returns every filled cell. */
  lemma GetCellsAfterInsert(s: Sheet, r: Range, v: Value, indexOf: (Range, Pos) -> uint32)
    ensures forall p :: InRect(r, p) ==> FillCell(r, v, indexOf, p) in GetCells(Filled(s, r, v, indexOf), r)
  {
  }
}

=== FILE: value.dfy ===
/** `Value`: the tagged union a cell holds, an `int`, a `double` or a string. */
module Values {
  import opened MachineInts
  import opened Numerals

  /** `Value::Type`, the tag. */
  datatype Type = INTEGER | DOUBLE | STRING

  /** A binary64 number, kept as the term that produced it: the conversion of a
      decimal numeral by `std::stod`, or an unsigned offset added to another
      binary64. Rounding is not modelled, so two different terms may denote the
      same number. */
  datatype Binary64 = Decimal(numeral: string) | Offset(base: Binary64, offset: uint32)

  /** The union together with its tag; the constructors `Value(int)`,
      `Value(double)`, `Value(const std::string &)` and `Value(const char *)`
      are `Integer`, `Double` and (for both string forms) `Text`. */
  datatype Value = Integer(i: int32) | Double(d: Binary64) | Text(s: string)

  /** `get_type` */
  function GetType(v: Value): Type {
    match v
    case Integer(_) => INTEGER
    case Double(_) => DOUBLE
    case Text(_) => STRING
  }

  /** `Value(void)` */
  function Default(): Value {
    Integer(0)
  }

  /** The copy constructor: the tag is copied and so is the payload; a string
      payload is duplicated into its own allocation. */
  function Copy(v: Value): (r: Value)
    ensures r == v
    ensures GetType(r) == GetType(v)
  {
    match v
    case Text(s) => Text(s[..])
    case Integer(i) => Integer(i)
    case Double(d) => Double(d)
  }

  /** `operator=`: the target's own string, if any, is released and the
      source is copied over it; nothing of the target survives. */
  function Assign(target: Value, source: Value): (r: Value)
    ensures r == source
  {
    Copy(source)
  }

  /** `operator+(unsigned)`: a string is returned unchanged, a number has
      the offset added. The integer case computes `i + (int)ui`; signed
      overflow is undefined in C++ and is modelled as two's-complement
      wrap-around. */
  function Plus(v: Value, n: uint32): (r: Value)
    ensures GetType(r) == GetType(v)
    ensures v.Text? ==> r == v
    ensures v.Integer? ==> r.i == ToSigned(v.i + n)
    ensures v.Integer? && v.i + n <= INT32_MAX ==> r == Integer(v.i + n)
  {
    match v
    case Text(s) => Text(s)
    case Integer(i) =>
      var sum := i + ToSigned(n);
      CongruentReduce(sum, i + n);
      Integer(ToSigned(sum))
    case Double(d) => Double(Offset(d, n))
  }

  /** `eval`: the display text. `std::to_string(double)` is a library
      formatting routine and is passed in as `formatDouble`. */
  function Eval(v: Value, formatDouble: Binary64 -> string): (r: string)
    ensures v.Text? ==> r == v.s
    ensures v.Integer? ==> (v.i >= 0 <==> AllDigits(r))
    ensures v.Integer? && v.i >= 0 ==> ValueOf(r) == v.i
  {
    match v
    case Integer(i) =>
      if i >= 0 then ValueOfNatToString(i); IntToString(i) else IntToString(i)
    case Double(d) => formatDouble(d)
    case Text(s) => s
  }

  /** Each constructor fixes the tag `get_type` reports, and the default
      value is the integer 0. */
  lemma ConstructorTags(i: int32, d: Binary64, s: string)
    ensures GetType(Default()) == INTEGER && Default().i == 0
    ensures GetType(Integer(i)) == INTEGER
    ensures GetType(Double(d)) == DOUBLE
    ensures GetType(Text(s)) == STRING
  {
  }

  /** Adding 0 leaves an integer or a string unchanged. */
  lemma PlusZero(v: Value)
    requires !v.Double?
    ensures Plus(v, 0) == v
  {
  }

  /** On an integer or a string, two offsets applied one after the other
      act as their unsigned sum applied once. */
  lemma PlusTwice(v: Value, a: uint32, b: uint32)
    requires !v.Double?
    ensures Plus(Plus(v, a), b) == Plus(v, ToUnsigned(a + b))
  {
    if v.Integer? {
      PlusTwiceInteger(v.i, a, b);
    }
  }

  /** Adding to an integer gives the wrapped sum. */
  lemma PlusInteger(i: int32, n: uint32)
    ensures Plus(Integer(i), n) == Integer(ToSigned(i + n))
  {
  }

  /** The integer case of `PlusTwice`: the two wrapped additions meet the
      single one. */
  lemma PlusTwiceInteger(i: int32, a: uint32, b: uint32)
    ensures Plus(Plus(Integer(i), a), b) == Plus(Integer(i), ToUnsigned(a + b))
  {
    var once := ToSigned(i + a);
    calc {
      Plus(Plus(Integer(i), a), b);
    == { PlusInteger(i, a); }
      Plus(Integer(once), b);
    == { PlusInteger(once, b); }
      Integer(ToSigned(once + b));
    == { SignedAddTwice(i, a, b); }
      Integer(ToSigned(i + ToUnsigned(a + b)));
    == { PlusInteger(i, ToUnsigned(a + b)); }
      Plus(Integer(i), ToUnsigned(a + b));
    }
  }
}
